=== FILE: README.md ===
# EvoLingo core, modelled in Dafny

EvoLingo shows the etymology of a word on a globe with a timeline slider, asks a
language model for a speculative future form of the word, looks up idioms, and
translates chat transcripts through a localization engine. Almost everything is
UI and API glue; this project models the four pieces with local logic:

- **Timeline playback** (`timeline.dfy`, module `Timeline`): the play/pause state
  machine over an integer year, ticking by 5 years and snapping to `max`; its
  default bounds and the "N BC" origin label.
- **Search-result derivation and page state** (`search_view.dfy`, `page.dfy`):
  how an etymology record becomes map markers and a timeline range, and how the
  page's state reacts to searches, responses, the sidebar, the slider and ticks.
- **Translation wrappers** (`translate.dfy`): `translateText`, `translateObject`
  and `translateChat` over an abstract engine that may fail.
- **API routes** (`etymology.dfy`, `predict.dfy`, `idioms.dfy`): request
  validation, the choice between the provider's answer and a mock, and the mocks.

Shared pieces: `wrappers.dfy` holds `Option`/`Result`, JavaScript truthiness of
optional fields (module `Js`: a string is truthy when present and non-empty, a
number when present and non-zero) and the route/fetch outcomes (module `Http`);
`decimal.dfy` renders naturals in decimal as template literals do.

External services are parameters. An OpenAI provider is a function returning
`Option`: `None` stands for a thrown exception, empty content or unparsable
JSON. A request without a key never reaches the provider: that case is the
route's own branch to the mock. The localization engine is a
function returning `None` when the SDK throws. Timers become a one-step `Tick`
function; asynchronous responses become separate page events that may arrive
interleaved with ticks.

Behaviours of the code the model keeps:
- Playback overshoots: a tick from below `max` adds a full step, so the year can
  reach `max + 4`, and stopping costs one extra tick that snaps back to `max`
  (`Timeline.PlaybackStops` counts `ceil((max - year) / 5) + 1` ticks).
- A failed translation throws ("Failed to translate …"); it never returns the
  original text, and `translateChat` returns nothing partial.
- There is no year-filtered reveal, path geometry, stable sort or camera focus:
  the globe draws every marker.

A consequence proved in `Page.FuturePanelOnlyInOvershoot`: since the timeline's
range always ends at 2024, the future panel (shown when the year exceeds 2024)
appears only at years 2025 to 2028, which only a tick's overshoot reaches, and
never at the predicted year 2050. If the sidebar closes before the snap-back
tick, the year and the panel stay there until the next search
(`Page.ClosedSidebarStrandsPanel`).

## Model

| member | source | states |
|---|---|---|
| Timeline.ResolveBounds | components/Timeline.tsx:16 | an omitted `min` defaults to 1000 and an omitted `max` to 2024; given bounds are kept |
| Timeline.Tick | components/Timeline.tsx:23-29 | from a year at or past `max` the tick returns exactly `max` and stops; from below `max` it adds 5 and keeps playing, landing in `(year, max + 4]`; a stopped timeline does not change |
| Timeline.TogglePlay | components/Timeline.tsx:35 | the button flips `isPlaying` and leaves the year alone |
| Timeline.StoppedIsFixed | components/Timeline.tsx:19-33 | once stopped, no number of ticks changes the state (the interval is cleared) |
| Timeline.OvershootBounded | components/Timeline.tsx:23-29 | a year at most `max + 4` stays at most `max + 4` under any number of ticks |
| Timeline.PlaybackStops | components/Timeline.tsx:23-29 | from any year, playback ends at exactly `max`, stopped, after `ceil((max - year) / 5) + 1` ticks (one tick when already at or past `max`) and is still playing after every smaller count |
| Timeline.DefaultPlaybackStops | components/Timeline.tsx:16-29 | mounted without bounds, playing from the resolved lower bound stops at 2024 after exactly 206 ticks, still playing before |
| Timeline.OriginLabel | components/Timeline.tsx:48 | a negative bound is labelled with its magnitude and a " BC" suffix, a non-negative one by its digits |
| Timeline.OriginLabelRoundTrip | components/Timeline.tsx:48 | the origin label can be read back to exactly the bound it shows |
| Decimal.NatToString | components/Timeline.tsx:48 | a number renders as a non-empty string of digits without a leading zero |
| Decimal.ParseNatToString | components/Timeline.tsx:48 | the decimal rendering parses back to the number |
| Etymology.Mock | app/api/etymology/route.ts:38-45 | the mock has root, path and current, and its current word is the requested word |
| Etymology.Post | app/api/etymology/route.ts:4-46 | 400 "Word is required" iff the word is missing or empty; otherwise the body is the provider's record or the mock, the provider's record whenever a key is given and it answers, and the mock whenever no key is given |
| Etymology.NoKeyIgnoresProvider | app/api/etymology/route.ts:12 | without a truthy key the response does not depend on the provider |
| Etymology.ProviderFailureFallsBack | app/api/etymology/route.ts:24-31 | a provider that throws or returns empty content yields the mock record |
| SearchView.MinOf | app/page.tsx:43-67 | the running `Math.min` is at most its start and every folded year, and equals one of them |
| SearchView.TruthyYearsExact | app/page.tsx:50-67 | the years taken into the minimum are exactly the present, non-zero years of the stages |
| SearchView.ViewOf | app/page.tsx:42-72 | markers are those of the located stages in root/path/current order; `range.max` is 2024, `range.min` is at most 2024 and every truthy year, and is 2024 or one of those years |
| SearchView.MarkersOfAppend | app/page.tsx:46-68 | markers of concatenated stage lists are the concatenated markers (order is kept) |
| SearchView.MarkersInStageOrder | app/page.tsx:46-68 | the root's marker comes first, then the path's in input order, then the current form's |
| SearchView.MarkersAllLocated | app/page.tsx:46-68 | when every stage is located, marker i is stage i's location with its language as label |
| SearchView.MarkersNoneLocated | app/page.tsx:46-68 | stages without a location contribute no marker |
| SearchView.Visit | app/page.tsx:46-51 | handling one stage extends the markers and the running minimum exactly as the reference definitions do |
| SearchView.VisitPath | app/page.tsx:53-59 | the `forEach` over the path extends the markers and the running minimum by every step in order |
| SearchView.Derive | app/page.tsx:42-72 | the page's imperative procedure (root, loop over path, current) computes exactly `ViewOf` |
| SearchView.MockChronological | app/api/etymology/route.ts:38-45 | the mock's four stages are all located and their years strictly increase |
| SearchView.MockView | app/api/etymology/route.ts:38-45 | fed to the page, the mock yields four markers, first Proto-Indo-European and last English, and the range from -3000 to 2024 |
| Predict.Mock | app/api/predict/route.ts:37-45 | the mock echoes the year, is the word followed by "-X", and keeps a truthy context or uses "Technological Integration" |
| Predict.Post | app/api/predict/route.ts:4-46 | 400 iff the word is missing/empty or the year missing/0; otherwise the provider's prediction or the mock, the provider's whenever a key is given and it answers, the mock whenever no key is given |
| Predict.YearZeroRejected | app/api/predict/route.ts:7-9 | year 0 is rejected like a missing year |
| Predict.NoKeyIgnoresProvider | app/api/predict/route.ts:11-33 | without a truthy key the response does not depend on the provider |
| Idioms.Mock | app/api/idioms/route.ts:54-60 | the native idiom is "Mock Idiom for " followed by the word; the other four fields are fixed |
| Idioms.Post | app/api/idioms/route.ts:4-61 | 400 iff the word or the language is missing/empty; otherwise the provider's idiom or the mock, the provider's whenever a key is given and it answers, the mock whenever no key is given |
| Idioms.MockIgnoresLanguage | app/api/idioms/route.ts:54-60 | without a key the answer does not depend on the language |
| Translate.SourceOrNull | app/actions/translate.ts:16 | the source locale reaches the engine iff it is truthy; otherwise null |
| Translate.TranslateText | app/actions/translate.ts:8-27 | empty text gives ""; otherwise success iff the engine answers, with its answer; failure is "Failed to translate text" |
| Translate.EmptyTextSkipsEngine | app/actions/translate.ts:13 | empty text gives "" whatever the engine does |
| Translate.TranslateObject | app/actions/translate.ts:32-48 | absent content gives `{}`; otherwise success iff the engine answers, with its answer; the source locale defaults to "en"; failure is "Failed to translate object" |
| Translate.OmittedSourceIsEnglish | app/actions/translate.ts:35 | omitting the source locale gives the same result as passing "en" |
| Translate.AbsentContentSkipsEngine | app/actions/translate.ts:37 | absent content gives `{}` whatever the engine does |
| Translate.Clean | app/actions/translate.ts:64-65 | a kept item keeps its text, and its name unless missing or empty, which becomes "Unknown" |
| Translate.Sanitize | app/actions/translate.ts:61-66 | sanitised messages are no more than the items and all have non-empty text and name |
| Translate.SanitizeAppend | app/actions/translate.ts:61-66 | sanitisation keeps input order across any split of the input |
| Translate.SanitizeAllKept | app/actions/translate.ts:61-66 | when every item has truthy text, message i is item i cleaned |
| Translate.SanitizeNoneKept | app/actions/translate.ts:61-66 | when no item has truthy text, nothing remains |
| Translate.TranslateChat | app/actions/translate.ts:53-87 | a non-array, empty or fully filtered input gives []; failure iff some sanitised message's translation fails, with "Failed to translate chat"; on success, same length and names in order, each text the translation or, if that is empty, the original |
| Http.Received | app/page.tsx:37 | a 400 is a non-ok fetch, a 200 delivers its body |
| Page.StartSearch | app/page.tsx:22-25 | a search clears result, prediction, markers and range before fetching, and stops playback by unmounting the timeline |
| Page.EtymologyLoaded | app/page.tsx:38-72 | an etymology response sets the result, the markers and the range derived from the record, and moves the cursor to 2024 |
| Page.PredictionLoaded | app/page.tsx:85-87 | a prediction response is stored and nothing else changes |
| Page.CloseSidebar | app/page.tsx:102-105 | closing clears the result and the range, keeps the markers and the prediction |
| Page.TogglePlay | app/page.tsx:125-132 | the play button flips playback only while the timeline is mounted, and changes nothing else |
| Page.Tick | app/page.tsx:125-132 | a tick acts only on a mounted, playing timeline, with the range's upper bound as `max`, and changes only the year and playback |
| Page.Slide | components/Timeline.tsx:53-58 | the slider sets the year to the chosen value, always within the range, and changes nothing else |
| Page.ApplyConsistent | app/page.tsx:42-72 | every transition keeps the range ending at 2024, playback only while mounted, and the year at most 2028 |
| Page.ReplayConsistent | app/page.tsx:42-72 | every state reached by any sequence of events is consistent |
| Page.FuturePanel | app/page.tsx:119-121 | the future panel is shown iff the year exceeds 2024 and a prediction exists, showing the cursor year in place of the prediction's |
| Page.FuturePanelOnlyInOvershoot | app/page.tsx:119 | in every reachable state a shown future panel has a year between 2025 and 2028 |
| Page.OvershootSnapsBack | components/Timeline.tsx:24-27 | from an overshoot the next tick returns to 2024, stops, and hides the future panel |
| Page.ClosedSidebarStrandsPanel | app/page.tsx:102-125 | closing the sidebar right after an overshooting tick leaves the cursor at 2028 with the timeline unmounted, so the future panel stays shown through later ticks, toggles and drags |
| Page.HandleSearch | app/page.tsx:18-95 | a thrown etymology fetch leaves only the reset; a loaded one shows its view at 2024; a non-ok one leaves it cleared; the prediction is stored iff its fetch loads and the etymology fetch did not throw |
| Page.NoKeyFetchesMocks | app/page.tsx:31-82 | without an API key, the etymology and prediction fetches of a search deliver the two routes' mocks |
| Page.SearchWithoutKey | app/page.tsx:31-82 | with no API key and a term that is not all JavaScript whitespace, a search shows four markers, the range from -3000 to 2024, the cursor at 2024, the mock prediction for 2050, and no future panel |

## Left out

- Real timers and asynchrony: `setInterval`/`clearInterval`, the 100 ms period, `await fetch`, `Promise.all` parallelism and the mock routes' `setTimeout` delays. A tick is one function call; responses are events; chat messages are translated one after another, which is indistinguishable for a pure engine.
- The OpenAI and Lingo.dev SDK calls, the prompt texts and `JSON.parse` of model output: foreign services, modelled as functions returning `Option`. Only the predict prompt's context fallback ("General Evolution") is kept, as an argument to the provider.
- Years are modelled as unbounded integers, while the code holds them in JavaScript numbers (doubles): the model is exact only for |year| <= 2^53. Beyond that `prevYear + 5` rounds, so the tick count of `Timeline.PlaybackStops` differs and near -10^17 playback would never stop, and from 10^21 on the origin label prints exponent notation such as "1e+21 BC" rather than digits.
- Request bodies that are not a JSON object: `req.json()` or the destructuring throws and the route answers 500; the routes are modelled over the decoded fields.
- Non-string or non-number JSON values: the coercions `String(...)` in chat sanitisation, a numeric `text`, `NaN` years, fractional years, and a `path` that is not an array. Fields are modelled as optional strings and integers.
- Stale responses: the page has no request-generation check, and the event model lets an old search's response land after a new search, as the code does; nothing is proved about which search's data is shown.
- Logging (`console.log`/`console.error`), styling, the "Current" label's highlight at 2024, and the motion effects.
- components/chat/GroupManager.tsx, components/Settings.tsx, the token loading in components/Globe.tsx, lib/constants.ts and the presentational components: database, storage and UI plumbing without local logic.
- components/ActionPanel.tsx is not modelled beyond its blank-term guard `term.trim()`, which appears as the `NonBlank` precondition of `Page.SearchWithoutKey` (a character outside JavaScript's white space and line terminators).
- Translate.TranslateObject: does not state that the result has the structure of the content, because that is the engine's promise and the engine is abstract.
- Page.Slide: the slider's value is assumed to lie within the range because the browser's range input clamps it; `parseInt` of that value is the identity on integers.
- Page.StartSearch: the reset of playback follows from React discarding the timeline's state when it unmounts; React's render batching is not modelled.

=== FILE: decimal.dfy ===
/**
 * Decimal rendering of naturals, as JavaScript's template literals print
 * integers of magnitude at most 2^53.
 */
module Decimal {

  predicate IsDigit(c: char) {
    '0' <= c <= '9'
  }

  predicate AllDigits(s: string) {
    forall i :: 0 <= i < |s| ==> IsDigit(s[i])
  }

  function DigitChar(d: nat): (c: char)
    requires d < 10
    ensures IsDigit(c) && c as int - '0' as int == d
  {
    "0123456789"[d]
  }

  /** The shortest decimal spelling of `n`: digits only, no leading zero. */
  function NatToString(n: nat): (s: string)
    ensures |s| >= 1 && AllDigits(s)
    ensures s[0] == '0' ==> n == 0 && s == "0"
    decreases n
  {
    if n < 10 then [DigitChar(n)] else NatToString(n / 10) + [DigitChar(n % 10)]
  }

  /** Reads a string of digits back as a natural. */
  function ParseNat(s: string): nat
    requires AllDigits(s)
    decreases |s|
  {
    if |s| == 0 then 0
    else ParseNat(s[..|s| - 1]) * 10 + (s[|s| - 1] as int - '0' as int)
  }

  /** Rendering loses nothing: the decimal string parses back to the number. */
  lemma {:induction false} ParseNatToString(n: nat)
    ensures ParseNat(NatToString(n)) == n
    decreases n
  {
    if n >= 10 {
      var s := NatToString(n);
      assert s[..|s| - 1] == NatToString(n / 10);
      ParseNatToString(n / 10);
    }
  }
}

=== FILE: etymology.dfy ===
/** The etymology record exchanged between the etymology route and the page, and the route itself. */
module Etymology {
  import opened Wrappers
  import opened Js
  import opened Http

  /** A point on the map, in degrees. */
  datatype Location = Location(lat: real, lng: real)

  /** One stage of a word's history. Language, year and location may be missing; the page never reads word or meaning. */
  datatype Stage = Stage(
    word: string,
    language: Option<string>,
    meaning: string,
    year: Option<int>,
    location: Option<Location>)

  /** The route's JSON body: the root form, the intermediate forms, and the present-day form. */
  datatype Record = Record(root: Option<Stage>, path: Option<seq<Stage>>, current: Option<Stage>)

  /** The provider: given the word and the API key, a parsed record, or nothing when the call throws or returns empty content. */
  type Provider = (string, string) -> Option<Record>

  /** The canned answer: a root, two intermediate stages and the requested word as the English present-day form. */
  function Mock(word: string): (r: Record)
    ensures r.root.Some? && r.path.Some? && r.current.Some?
    ensures r.current.value.word == word
  {
    Record(
      Some(Stage("dhghem", Some("Proto-Indo-European"), "earth", Some(-3000), Some(Location(48.0, 35.0)))),
      Some([
        Stage("humanus", Some("Latin"), "human", Some(100), Some(Location(41.9, 12.5))),
        Stage("humain", Some("Old French"), "human", Some(1200), Some(Location(48.8, 2.3)))
      ]),
      Some(Stage(word, Some("English"), "A member of the species Homo sapiens", Some(2024), Some(Location(51.5, -0.1)))))
  }

  /**
   * POST /api/etymology: a missing or empty word is a 400; otherwise the
   * provider's record when a key is given and the provider answers, else the mock.
   */
  function Post(word: Option<string>, apiKey: Option<string>, provider: Provider): (r: Response<Record>)
    ensures r.BadRequest? <==> !TruthyStr(word)
    ensures r.BadRequest? ==> r.error == "Word is required"
    ensures r.Ok? ==> r.body == Mock(word.value) || (TruthyStr(apiKey) && provider(word.value, apiKey.value) == Some(r.body))
    ensures r.Ok? && TruthyStr(apiKey) && provider(word.value, apiKey.value).Some? ==> r.body == provider(word.value, apiKey.value).value
    ensures r.Ok? && !TruthyStr(apiKey) ==> r.body == Mock(word.value)
  {
    if !TruthyStr(word) then BadRequest("Word is required")
    else if TruthyStr(apiKey) then
      match provider(word.value, apiKey.value)
      case Some(rec) => Ok(rec)
      case None => Ok(Mock(word.value))
    else Ok(Mock(word.value))
  }

  /** Without a key the provider is never consulted: any two providers give the same response. */
  lemma NoKeyIgnoresProvider(word: Option<string>, apiKey: Option<string>, p1: Provider, p2: Provider)
    requires !TruthyStr(apiKey)
    ensures Post(word, apiKey, p1) == Post(word, apiKey, p2)
  {
  }

  /** A provider that fails (throws or answers with empty content) falls back to the mock. */
  lemma ProviderFailureFallsBack(word: Option<string>, apiKey: Option<string>, provider: Provider)
    requires TruthyStr(word) && TruthyStr(apiKey)
    requires provider(word.value, apiKey.value).None?
    ensures Post(word, apiKey, provider) == Ok(Mock(word.value))
  {
  }
}

=== FILE: idioms.dfy ===
/** POST /api/idioms: a local idiom related to a word, from the provider or a canned mock. */
module Idioms {
  import opened Wrappers
  import opened Js
  import opened Http

  /** The idiom record shown by the cultural-insight modal; `romanized` may be null. */
  datatype Idiom = Idiom(
    nativeIdiom: string,
    romanized: Option<string>,
    literalMeaning: string,
    meaning: string,
    originStory: string)

  /** The provider: word, language and API key to a parsed idiom, or nothing on failure or empty content. */
  type Provider = (string, string, string) -> Option<Idiom>

  const MockPrefix: string := "Mock Idiom for "

  /** The canned idiom: its native text names the word; the other four fields are fixed. */
  function Mock(word: string): (i: Idiom)
    ensures |i.nativeIdiom| == |MockPrefix| + |word|
    ensures i.nativeIdiom[..|MockPrefix|] == MockPrefix && i.nativeIdiom[|MockPrefix|..] == word
    ensures i.romanized == Some("Mokkus Idiomus")
    ensures i.literalMeaning == "Start of a mock journey"
    ensures i.meaning == "Every journey begins with a single step, even a mock one."
    ensures i.originStory == "Ancient developer proverb."
  {
    Idiom(
      MockPrefix + word,
      Some("Mokkus Idiomus"),
      "Start of a mock journey",
      "Every journey begins with a single step, even a mock one.",
      "Ancient developer proverb.")
  }

  /**
   * The route: a missing word or language is a 400; otherwise the provider's
   * idiom when a key is given and the provider answers, else the mock.
   */
  function Post(word: Option<string>, language: Option<string>, apiKey: Option<string>, provider: Provider): (r: Response<Idiom>)
    ensures r.BadRequest? <==> !TruthyStr(word) || !TruthyStr(language)
    ensures r.BadRequest? ==> r.error == "Word and Language are required"
    ensures r.Ok? ==>
              || r.body == Mock(word.value)
              || (TruthyStr(apiKey) && provider(word.value, language.value, apiKey.value) == Some(r.body))
    ensures r.Ok? && TruthyStr(apiKey) && provider(word.value, language.value, apiKey.value).Some?
            ==> r.body == provider(word.value, language.value, apiKey.value).value
    ensures r.Ok? && !TruthyStr(apiKey) ==> r.body == Mock(word.value)
  {
    if !TruthyStr(word) || !TruthyStr(language) then BadRequest("Word and Language are required")
    else if TruthyStr(apiKey) then
      match provider(word.value, language.value, apiKey.value)
      case Some(i) => Ok(i)
      case None => Ok(Mock(word.value))
    else Ok(Mock(word.value))
  }

  /** The mock depends on the word alone: the language does not change it. */
  lemma MockIgnoresLanguage(word: string, l1: string, l2: string, apiKey: Option<string>, provider: Provider)
    requires word != "" && l1 != "" && l2 != ""
    requires !TruthyStr(apiKey)
    ensures Post(Some(word), Some(l1), apiKey, provider) == Post(Some(word), Some(l2), apiKey, provider)
  {
  }
}

=== FILE: page.dfy ===
/**
 * The home page's state: the cursor year, the search and prediction results,
 * the markers, the timeline range, and whether the mounted timeline is playing.
 * Each user action or arriving response is one transition.
 */
module Page {
  import opened Wrappers
  import opened Js
  import opened Http
  import Etymology
  import Predict
  import Timeline
  import opened SearchView

  /** The future year the page asks the prediction route about. */
  const PredictionYear: int := 2050

  /** The largest year the cursor can hold: the present plus the overshoot of one tick. */
  const MaxCursorYear: int := PresentYear + Timeline.Step - 1

  /** The page's React state. The timeline is mounted exactly when `range` is present, and `playing` is its state. */
  datatype Page = Page(
    year: int,
    searchResult: Option<Etymology.Record>,
    prediction: Option<Predict.Prediction>,
    markers: seq<Marker>,
    range: Option<Range>,
    playing: bool)

  /** The state on first render. */
  const Initial: Page := Page(PresentYear, None, None, [], None, false)

  /** Starting a search clears every result before any fetch; the timeline unmounts, so its playback is lost. */
  function StartSearch(p: Page): (q: Page)
    ensures q.searchResult.None? && q.prediction.None? && q.markers == [] && q.range.None?
    ensures !q.playing && q.year == p.year
  {
    Page(p.year, None, None, [], None, false)
  }

  /** An etymology response shows its record, its markers and its range, and moves the cursor to the present. */
  function EtymologyLoaded(p: Page, r: Etymology.Record): (q: Page)
    ensures q.searchResult == Some(r)
    ensures q.markers == MarkersOf(Stages(r))
    ensures q.range == Some(ViewOf(r).range)
    ensures q.range.value.max == PresentYear == q.year && q.range.value.min <= q.year
    ensures q.prediction == p.prediction && q.playing == p.playing
  {
    var v := ViewOf(r);
    p.(searchResult := Some(r), markers := v.markers, range := Some(v.range), year := v.range.max)
  }

  /** A prediction response is stored as is. */
  function PredictionLoaded(p: Page, pr: Predict.Prediction): (q: Page)
    ensures q.prediction == Some(pr)
    ensures q.(prediction := p.prediction) == p
  {
    p.(prediction := Some(pr))
  }

  /** Closing the sidebar clears the result and the range (unmounting the timeline) but keeps the markers. */
  function CloseSidebar(p: Page): (q: Page)
    ensures q.searchResult.None? && q.range.None? && !q.playing
    ensures q.markers == p.markers && q.prediction == p.prediction && q.year == p.year
  {
    p.(searchResult := None, range := None, playing := false)
  }

  /** The play/pause button; it exists only while the timeline is mounted. */
  function TogglePlay(p: Page): (q: Page)
    ensures p.range.Some? ==> q.playing == !p.playing && q.year == p.year
    ensures p.range.None? ==> q == p
    ensures q == p.(playing := q.playing)
  {
    if p.range.None? then p
    else
      var t := Timeline.TogglePlay(Timeline.Playback(p.year, p.playing));
      p.(playing := t.playing)
  }

  /** One firing of the timeline's interval, with the range's upper bound as `max`. */
  function Tick(p: Page): (q: Page)
    ensures p.range.None? || !p.playing ==> q == p
    ensures p.range.Some? && p.playing && p.year >= p.range.value.max ==> q.year == p.range.value.max && !q.playing
    ensures p.range.Some? && p.playing && p.year < p.range.value.max ==> q.year == p.year + Timeline.Step && q.playing
    ensures q == p.(year := q.year, playing := q.playing)
  {
    if p.range.None? || !p.playing then p
    else
      var t := Timeline.Tick(Timeline.Playback(p.year, p.playing), p.range.value.max);
      p.(year := t.year, playing := t.playing)
  }

  /** Dragging the slider to `v`: the range input only yields values within its bounds. */
  function Slide(p: Page, v: int): (q: Page)
    ensures p.range.Some? && p.range.value.min <= p.range.value.max ==> p.range.value.min <= q.year <= p.range.value.max
    ensures p.range.Some? && p.range.value.min <= v <= p.range.value.max ==> q.year == v
    ensures q.playing == p.playing && q.range == p.range
    ensures p.range.None? ==> q == p
    ensures q == p.(year := q.year)
  {
    if p.range.None? then p
    else
      var r := p.range.value;
      p.(year := if v > r.max then r.max else if v < r.min then r.min else v)
  }

  /** Whatever can happen to the page, one step at a time; responses may arrive interleaved with ticks. */
  datatype Event =
    | Search
    | EtymologyArrived(record: Etymology.Record)
    | PredictionArrived(prediction: Predict.Prediction)
    | Close
    | Toggle
    | IntervalFired
    | Dragged(value: int)

  /** One event's transition. */
  function Apply(p: Page, e: Event): Page {
    match e
    case Search => StartSearch(p)
    case EtymologyArrived(r) => EtymologyLoaded(p, r)
    case PredictionArrived(pr) => PredictionLoaded(p, pr)
    case Close => CloseSidebar(p)
    case Toggle => TogglePlay(p)
    case IntervalFired => Tick(p)
    case Dragged(v) => Slide(p, v)
  }

  function Replay(p: Page, es: seq<Event>): Page
    decreases |es|
  {
    if |es| == 0 then p else Replay(Apply(p, es[0]), es[1..])
  }

  /**
   * What always holds of the page: a present range ends at 2024 and starts no
   * later, a playing timeline is mounted, and the cursor is at most 2028.
   */
  predicate Consistent(p: Page) {
    && p.year <= MaxCursorYear
    && (p.range.Some? ==> p.range.value.max == PresentYear && p.range.value.min <= PresentYear)
    && (p.range.None? ==> !p.playing)
  }

  lemma ApplyConsistent(p: Page, e: Event)
    requires Consistent(p)
    ensures Consistent(Apply(p, e))
  {
  }

  /** Every state reachable from the first render is consistent. */
  lemma {:induction false} ReplayConsistent(p: Page, es: seq<Event>)
    requires Consistent(p)
    ensures Consistent(Replay(p, es))
    decreases |es|
  {
    if |es| > 0 {
      ApplyConsistent(p, es[0]);
      ReplayConsistent(Apply(p, es[0]), es[1..]);
    }
  }

  /** The future panel: shown when the cursor is past 2024 and a prediction exists, with the cursor year in place of the prediction's. */
  function FuturePanel(p: Page): (shown: Option<Predict.Prediction>)
    ensures shown.Some? <==> p.year > PresentYear && p.prediction.Some?
    ensures shown.Some? ==> shown.value.year == p.year && shown.value.(year := p.prediction.value.year) == p.prediction.value
  {
    if p.year > PresentYear && p.prediction.Some? then Some(p.prediction.value.(year := p.year)) else None
  }

  /**
   * The cursor passes 2024 only through a tick's overshoot, so the future panel
   * shows years 2025 to 2028 only, never the predicted year 2050 itself.
   */
  lemma FuturePanelOnlyInOvershoot(es: seq<Event>)
    ensures var shown := FuturePanel(Replay(Initial, es));
      shown.Some? ==> PresentYear < shown.value.year <= MaxCursorYear < PredictionYear
  {
    ReplayConsistent(Initial, es);
  }

  /** From an overshoot, the next tick snaps back to 2024, stops playback and hides the future panel. */
  lemma OvershootSnapsBack(p: Page)
    requires Consistent(p) && p.year > PresentYear && p.playing
    ensures Tick(p).year == PresentYear && !Tick(p).playing && FuturePanel(Tick(p)).None?
  {
  }

  /**
   * The snap-back can be missed: closing the sidebar between the overshooting
   * tick and the next one unmounts the timeline with the cursor at 2028, and the
   * future panel then stays shown whatever ticks or button presses follow.
   */
  lemma ClosedSidebarStrandsPanel(pr: Predict.Prediction)
    ensures var p := Replay(Initial, [
              EtymologyArrived(Etymology.Mock("w")), PredictionArrived(pr),
              Dragged(PresentYear - 1), Toggle, IntervalFired, Close]);
      && p.year == MaxCursorYear && p.range.None? && !p.playing
      && FuturePanel(p) == Some(pr.(year := MaxCursorYear))
      && Replay(p, [IntervalFired, Toggle, IntervalFired, Dragged(PresentYear)]) == p
  {
    var p0 := EtymologyLoaded(Initial, Etymology.Mock("w"));
    MockView("w");
    var es := [EtymologyArrived(Etymology.Mock("w")), PredictionArrived(pr),
               Dragged(PresentYear - 1), Toggle, IntervalFired, Close];
    assert Replay(Initial, es) == Replay(p0, es[1..]);
    StrandAfterLoad(p0, pr);
  }

  /** The tail of `ClosedSidebarStrandsPanel`, from a loaded page whose range is the mock's. */
  lemma StrandAfterLoad(p0: Page, pr: Predict.Prediction)
    requires p0.range == Some(Range(-3000, PresentYear)) && !p0.playing
    ensures var p := Replay(p0, [PredictionArrived(pr), Dragged(PresentYear - 1), Toggle, IntervalFired, Close]);
      && p.year == MaxCursorYear && p.range.None? && !p.playing
      && FuturePanel(p) == Some(pr.(year := MaxCursorYear))
      && Replay(p, [IntervalFired, Toggle, IntervalFired, Dragged(PresentYear)]) == p
  {
    var p1 := PredictionLoaded(p0, pr);
    var p2 := Slide(p1, PresentYear - 1);
    var p3 := TogglePlay(p2);
    var p4 := Tick(p3);
    var p5 := CloseSidebar(p4);
    assert p5.year == MaxCursorYear;
    assert Replay(p0, [PredictionArrived(pr), Dragged(PresentYear - 1), Toggle, IntervalFired, Close]) == p5 by {
      assert Replay(p5, []) == p5;
      assert Replay(p4, [Close]) == p5;
      assert Replay(p3, [IntervalFired, Close]) == p5;
      assert Replay(p2, [Toggle, IntervalFired, Close]) == p5;
      assert Replay(p1, [Dragged(PresentYear - 1), Toggle, IntervalFired, Close]) == p5;
    }
    assert Replay(p5, [IntervalFired, Toggle, IntervalFired, Dragged(PresentYear)]) == p5 by {
      assert Replay(p5, [Dragged(PresentYear)]) == p5 by { assert Replay(p5, []) == p5; }
      assert Replay(p5, [IntervalFired, Dragged(PresentYear)]) == p5;
      assert Replay(p5, [Toggle, IntervalFired, Dragged(PresentYear)]) == p5;
    }
  }

  /**
   * handleSearch without interleaving: reset, then the etymology fetch (a
   * thrown error skips the prediction fetch; a non-ok status only skips the
   * etymology update), then the prediction fetch.
   */
  function HandleSearch(p: Page, etymology: Fetch<Etymology.Record>, prediction: Fetch<Predict.Prediction>): (q: Page)
    ensures etymology.Thrown? ==> q == StartSearch(p)
    ensures etymology.Loaded? ==> q.searchResult == Some(etymology.body) && q.year == PresentYear
                                  && q.markers == ViewOf(etymology.body).markers && q.range == Some(ViewOf(etymology.body).range)
    ensures !etymology.Loaded? ==> q.searchResult.None? && q.markers == [] && q.range.None? && q.year == p.year
    ensures q.prediction.Some? <==> !etymology.Thrown? && prediction.Loaded?
    ensures q.prediction.Some? ==> q.prediction.value == prediction.body
    ensures !q.playing
  {
    var reset := StartSearch(p);
    if etymology.Thrown? then reset
    else
      var shown := if etymology.Loaded? then EtymologyLoaded(reset, etymology.body) else reset;
      if prediction.Loaded? then PredictionLoaded(shown, prediction.body) else shown
  }

  /** The characters JavaScript's `String.prototype.trim` removes: its white space and line terminators. */
  predicate IsTrimmed(c: char) {
    || c in {'\t', '\n', '\U{000B}', '\U{000C}', '\r', ' ', '\U{00A0}', '\U{1680}'}
    || ('\U{2000}' <= c <= '\U{200A}')
    || c in {'\U{2028}', '\U{2029}', '\U{202F}', '\U{205F}', '\U{3000}', '\U{FEFF}'}
  }

  /** The guard of the search box: `term.trim()` is non-empty (the term itself is passed on untrimmed). */
  predicate NonBlank(term: string) {
    exists i :: 0 <= i < |term| && !IsTrimmed(term[i])
  }

  /** Without an API key, both fetches a search makes deliver the routes' mocks. */
  lemma NoKeyFetchesMocks(term: string, apiKey: Option<string>,
                          etymologyProvider: Etymology.Provider, predictProvider: Predict.Provider)
    requires term != ""
    requires !TruthyStr(apiKey)
    ensures Received(Etymology.Post(Some(term), apiKey, etymologyProvider)) == Loaded(Etymology.Mock(term))
    ensures Received(Predict.Post(Some(term), Some(PredictionYear), None, apiKey, predictProvider))
         == Loaded(Predict.Mock(term, PredictionYear, None))
  {
  }

  /**
   * A search with no API key: both routes answer with their mocks, so the page
   * shows four markers, the range from 3000 BC to 2024, the cursor at 2024 and
   * the mock prediction for 2050, with the future panel hidden.
   */
  lemma SearchWithoutKey(p: Page, term: string, apiKey: Option<string>,
                         etymologyProvider: Etymology.Provider, predictProvider: Predict.Provider)
    requires NonBlank(term)
    requires !TruthyStr(apiKey)
    ensures var q := HandleSearch(p,
              Received(Etymology.Post(Some(term), apiKey, etymologyProvider)),
              Received(Predict.Post(Some(term), Some(PredictionYear), None, apiKey, predictProvider)));
      && |q.markers| == 4
      && q.range == Some(Range(-3000, PresentYear))
      && q.year == PresentYear
      && q.searchResult == Some(Etymology.Mock(term))
      && q.prediction == Some(Predict.Mock(term, PredictionYear, None))
      && FuturePanel(q).None?
  {
    assert term != "";
    NoKeyFetchesMocks(term, apiKey, etymologyProvider, predictProvider);
    MockView(term);
  }
}

=== FILE: predict.dfy ===
/** POST /api/predict: a speculative future form of a word, from the provider or a canned mock. */
module Predict {
  import opened Wrappers
  import opened Js
  import opened Http

  /** The prediction the page shows in its future panel. */
  datatype Prediction = Prediction(
    year: int,
    word: string,
    phonetic: string,
    context: string,
    definition: string,
    example: string,
    post: string)

  /** The provider: word, year, prompt context and API key to a parsed prediction, or nothing on failure or empty content. */
  type Provider = (string, int, string, string) -> Option<Prediction>

  const DefaultContext: string := "Technological Integration"
  /** The context named in the provider's prompt when the request gives none. */
  const PromptContext: string := "General Evolution"

  /** The canned prediction: echoes the year, appends "-X" to the word, keeps a truthy context. */
  function Mock(word: string, year: int, context: Option<string>): (p: Prediction)
    ensures p.year == year
    ensures |p.word| == |word| + 2 && p.word[..|word|] == word && p.word[|word|..] == "-X"
    ensures TruthyStr(context) ==> p.context == context.value
    ensures !TruthyStr(context) ==> p.context == DefaultContext
  {
    Prediction(
      year,
      word + "-X",
      "/\U{02C8}" + word + " eks/",
      OrStr(context, DefaultContext),
      "A digitally enhanced version of the original concept.",
      "The " + word + "-X is now standard in all sectors.",
      "@future_user: Can't believe we used to use raw " + word + ". #upgrade #2050")
  }

  /**
   * The route: a missing word or a falsy year (absent or 0) is a 400; otherwise
   * the provider's prediction when a key is given and the provider answers, else the mock.
   */
  function Post(word: Option<string>, year: Option<int>, context: Option<string>, apiKey: Option<string>,
                provider: Provider): (r: Response<Prediction>)
    ensures r.BadRequest? <==> !TruthyStr(word) || !TruthyNum(year)
    ensures r.BadRequest? ==> r.error == "Word and year are required"
    ensures r.Ok? ==>
              || r.body == Mock(word.value, year.value, context)
              || (TruthyStr(apiKey) && provider(word.value, year.value, OrStr(context, PromptContext), apiKey.value) == Some(r.body))
    ensures r.Ok? && TruthyStr(apiKey) && provider(word.value, year.value, OrStr(context, PromptContext), apiKey.value).Some?
            ==> r.body == provider(word.value, year.value, OrStr(context, PromptContext), apiKey.value).value
    ensures r.Ok? && !TruthyStr(apiKey) ==> r.body == Mock(word.value, year.value, context)
  {
    if !TruthyStr(word) || !TruthyNum(year) then BadRequest("Word and year are required")
    else if TruthyStr(apiKey) then
      match provider(word.value, year.value, OrStr(context, PromptContext), apiKey.value)
      case Some(p) => Ok(p)
      case None => Ok(Mock(word.value, year.value, context))
    else Ok(Mock(word.value, year.value, context))
  }

  /** Year 0 is rejected like a missing year, whatever else the request holds. */
  lemma YearZeroRejected(word: Option<string>, context: Option<string>, apiKey: Option<string>, provider: Provider)
    ensures Post(word, Some(0), context, apiKey, provider).BadRequest?
  {
  }

  /** Without a key the provider is never consulted: any two providers give the same response. */
  lemma NoKeyIgnoresProvider(word: Option<string>, year: Option<int>, context: Option<string>, apiKey: Option<string>,
                             p1: Provider, p2: Provider)
    requires !TruthyStr(apiKey)
    ensures Post(word, year, context, apiKey, p1) == Post(word, year, context, apiKey, p2)
  {
  }
}

=== FILE: search_view.dfy ===
/**
 * The page's derivation of map markers and the timeline range from an
 * etymology record, done when a search's etymology response arrives.
 */
module SearchView {
  import opened Wrappers
  import opened Js
  import opened Etymology

  /** The timeline's upper bound, and the year the cursor jumps to after a search. */
  const PresentYear: int := 2024

  /** A map marker: a stage's location extended with its language as the caption. */
  datatype Marker = Marker(lat: real, lng: real, caption: Option<string>)

  /** The timeline bounds handed to the slider. */
  datatype Range = Range(min: int, max: int)

  /** What a search result puts on screen: the markers and the timeline range. */
  datatype View = View(markers: seq<Marker>, range: Range)

  function Listed(o: Option<Stage>): seq<Stage> {
    if o.Some? then [o.value] else []
  }

  /** The stages the page visits, in its order: root, each path step in input order, current. */
  function Stages(r: Record): (s: seq<Stage>)
    ensures |s| == |Listed(r.root)| + |r.path.GetOr([])| + |Listed(r.current)|
  {
    Listed(r.root) + r.path.GetOr([]) + Listed(r.current)
  }

  function MarkerOf(st: Stage): Marker
    requires st.location.Some?
  {
    Marker(st.location.value.lat, st.location.value.lng, st.language)
  }

  /** The markers of the located stages, in order; stages without a location contribute none. */
  function MarkersOf(sts: seq<Stage>): (ms: seq<Marker>)
    ensures |ms| <= |sts|
    decreases |sts|
  {
    if |sts| == 0 then []
    else
      var last := sts[|sts| - 1];
      MarkersOf(sts[..|sts| - 1]) + (if last.location.Some? then [MarkerOf(last)] else [])
  }

  /** The years that take part in the range: present and non-zero, in order. */
  function TruthyYears(sts: seq<Stage>): (ys: seq<int>)
    ensures |ys| <= |sts|
    decreases |sts|
  {
    if |sts| == 0 then []
    else
      var last := sts[|sts| - 1];
      TruthyYears(sts[..|sts| - 1]) + (if TruthyNum(last.year) then [last.year.value] else [])
  }

  /** `Math.min` folded over `ys`, starting from `acc`: the least of `acc` and every element. */
  function MinOf(acc: int, ys: seq<int>): (m: int)
    ensures m <= acc
    ensures forall i :: 0 <= i < |ys| ==> m <= ys[i]
    ensures m == acc || m in ys
    decreases |ys|
  {
    if |ys| == 0 then acc
    else
      var m := MinOf(acc, ys[..|ys| - 1]);
      if ys[|ys| - 1] < m then ys[|ys| - 1] else m
  }

  /** The truthy years are exactly the non-zero years of the stages that have one. */
  lemma {:induction false} TruthyYearsExact(sts: seq<Stage>)
    ensures forall y :: y in TruthyYears(sts) <==> exists i :: 0 <= i < |sts| && TruthyNum(sts[i].year) && sts[i].year.value == y
    decreases |sts|
  {
    if |sts| > 0 {
      var init := sts[..|sts| - 1];
      TruthyYearsExact(init);
      forall y
        ensures y in TruthyYears(sts) <==> exists i :: 0 <= i < |sts| && TruthyNum(sts[i].year) && sts[i].year.value == y
      {
        if exists i :: 0 <= i < |sts| && TruthyNum(sts[i].year) && sts[i].year.value == y {
          var i :| 0 <= i < |sts| && TruthyNum(sts[i].year) && sts[i].year.value == y;
          if i < |sts| - 1 {
            assert init[i] == sts[i];
          }
        }
        if y in TruthyYears(init) {
          var i :| 0 <= i < |init| && TruthyNum(init[i].year) && init[i].year.value == y;
          assert sts[i] == init[i];
        }
      }
    }
  }

  /**
   * The search view of a record: the markers of its located stages, and the
   * range from the least truthy year (or 2024) up to 2024.
   */
  function ViewOf(r: Record): (v: View)
    ensures v.markers == MarkersOf(Stages(r))
    ensures v.range.max == PresentYear && v.range.min <= v.range.max
    ensures forall i :: 0 <= i < |Stages(r)| && TruthyNum(Stages(r)[i].year) ==> v.range.min <= Stages(r)[i].year.value
    ensures v.range.min == PresentYear
         || exists i :: 0 <= i < |Stages(r)| && TruthyNum(Stages(r)[i].year) && Stages(r)[i].year.value == v.range.min
  {
    var sts := Stages(r);
    TruthyYearsExact(sts);
    var v := View(MarkersOf(sts), Range(MinOf(PresentYear, TruthyYears(sts)), PresentYear));
    assert forall i :: 0 <= i < |sts| && TruthyNum(sts[i].year) ==> sts[i].year.value in TruthyYears(sts);
    v
  }

  lemma {:induction false} MarkersOfAppend(a: seq<Stage>, b: seq<Stage>)
    ensures MarkersOf(a + b) == MarkersOf(a) + MarkersOf(b)
    decreases |b|
  {
    if |b| > 0 {
      var b' := b[..|b| - 1];
      assert (a + b)[..|a + b| - 1] == a + b';
      MarkersOfAppend(a, b');
    } else {
      assert a + b == a;
    }
  }

  /** The root's marker comes first, then the path's markers in input order, then the current form's marker. */
  lemma MarkersInStageOrder(r: Record)
    ensures MarkersOf(Stages(r))
         == MarkersOf(Listed(r.root)) + MarkersOf(r.path.GetOr([])) + MarkersOf(Listed(r.current))
  {
    MarkersOfAppend(Listed(r.root), r.path.GetOr([]));
    MarkersOfAppend(Listed(r.root) + r.path.GetOr([]), Listed(r.current));
  }

  /** When every stage is located, there is one marker per stage, in stage order, captioned with its language. */
  lemma {:induction false} MarkersAllLocated(sts: seq<Stage>)
    requires forall i :: 0 <= i < |sts| ==> sts[i].location.Some?
    ensures |MarkersOf(sts)| == |sts|
    ensures forall i :: 0 <= i < |sts| ==> MarkersOf(sts)[i] == Marker(sts[i].location.value.lat, sts[i].location.value.lng, sts[i].language)
    decreases |sts|
  {
    if |sts| > 0 {
      MarkersAllLocated(sts[..|sts| - 1]);
    }
  }

  /** Stages without a location contribute no marker at all. */
  lemma {:induction false} MarkersNoneLocated(sts: seq<Stage>)
    requires forall i :: 0 <= i < |sts| ==> sts[i].location.None?
    ensures MarkersOf(sts) == []
    decreases |sts|
  {
    if |sts| > 0 {
      MarkersNoneLocated(sts[..|sts| - 1]);
    }
  }

  /**
   * The page's handling of one stage: push its marker when it has a location,
   * and lower the running minimum by its year when that year is truthy.
   */
  method Visit(ghost seen: seq<Stage>, markers: seq<Marker>, minYear: int, st: Stage)
    returns (markers': seq<Marker>, minYear': int)
    requires markers == MarkersOf(seen)
    requires minYear == MinOf(PresentYear, TruthyYears(seen))
    ensures markers' == MarkersOf(seen + [st])
    ensures minYear' == MinOf(PresentYear, TruthyYears(seen + [st]))
  {
    assert (seen + [st])[..|seen|] == seen;
    markers' := markers;
    minYear' := minYear;
    if st.location.Some? {
      markers' := markers + [MarkerOf(st)];
    }
    var ys := TruthyYears(seen + [st]);
    if TruthyNum(st.year) {
      assert ys == TruthyYears(seen) + [st.year.value] && ys[..|ys| - 1] == TruthyYears(seen);
      minYear' := if st.year.value < minYear then st.year.value else minYear;
    } else {
      assert ys == TruthyYears(seen);
    }
  }

  /** The page's `forEach` over the path: each step handled in input order. */
  /** Taking one more element of `path` extends the visited prefix by that element. */
  lemma PrefixExtend<T>(seen: seq<T>, path: seq<T>, i: nat)
    requires i < |path|
    ensures seen + path[..i + 1] == (seen + path[..i]) + [path[i]]
  {
    assert path[..i + 1] == path[..i] + [path[i]];
  }

  /** The page's `forEach` over the path: each step handled in input order. */
  method VisitPath(ghost seen: seq<Stage>, markers: seq<Marker>, minYear: int, path: seq<Stage>)
    returns (markers': seq<Marker>, minYear': int)
    requires markers == MarkersOf(seen)
    requires minYear == MinOf(PresentYear, TruthyYears(seen))
    ensures markers' == MarkersOf(seen + path)
    ensures minYear' == MinOf(PresentYear, TruthyYears(seen + path))
  {
    markers', minYear' := markers, minYear;
    var i := 0;
    assert seen + path[..0] == seen;
    while i < |path|
      invariant 0 <= i <= |path|
      invariant markers' == MarkersOf(seen + path[..i])
      invariant minYear' == MinOf(PresentYear, TruthyYears(seen + path[..i]))
    {
      PrefixExtend(seen, path, i);
      markers', minYear' := Visit(seen + path[..i], markers', minYear', path[i]);
      i := i + 1;
    }
    assert path[..|path|] == path;
  }

  /**
   * The page's own procedure (root, then the path, then current), which
   * computes exactly `ViewOf`.
   */
  method Derive(r: Record) returns (v: View)
    ensures v == ViewOf(r)
  {
    var markers: seq<Marker> := [];
    var minYear := PresentYear;
    ghost var seen: seq<Stage> := [];
    if r.root.Some? {
      markers, minYear := Visit(seen, markers, minYear, r.root.value);
      seen := seen + [r.root.value];
    }
    assert seen == Listed(r.root);
    if r.path.Some? {
      markers, minYear := VisitPath(seen, markers, minYear, r.path.value);
      seen := seen + r.path.value;
    }
    assert seen == Listed(r.root) + r.path.GetOr([]);
    if r.current.Some? {
      markers, minYear := Visit(seen, markers, minYear, r.current.value);
      seen := seen + [r.current.value];
    }
    assert seen == Stages(r);
    assert markers == MarkersOf(Stages(r));
    assert minYear == MinOf(PresentYear, TruthyYears(Stages(r)));
    v := View(markers, Range(minYear, PresentYear));
  }

  /** The mock record's four stages are all located and strictly chronological. */
  lemma MockChronological(word: string)
    ensures var sts := Stages(Mock(word));
      && |sts| == 4
      && (forall i :: 0 <= i < 4 ==> sts[i].location.Some? && TruthyNum(sts[i].year))
      && (forall i, j :: 0 <= i < j < 4 ==> sts[i].year.value < sts[j].year.value)
  {
  }

  /** Fed to the page, the mock record yields four markers and the range from 3000 BC to 2024. */
  lemma MockView(word: string)
    ensures |ViewOf(Mock(word)).markers| == 4
    ensures ViewOf(Mock(word)).markers[0] == Marker(48.0, 35.0, Some("Proto-Indo-European"))
    ensures ViewOf(Mock(word)).markers[3] == Marker(51.5, -0.1, Some("English"))
    ensures ViewOf(Mock(word)).range == Range(-3000, PresentYear)
  {
    var sts := Stages(Mock(word));
    MockChronological(word);
    MarkersAllLocated(sts);
    var v := ViewOf(Mock(word));
    assert sts[0].year.value == -3000;
    assert v.range.min <= -3000;
  }
}

=== FILE: timeline.dfy ===
/**
 * The playback controller of the timeline slider: a two-state machine
 * (playing or stopped) over an integer year, advanced by a 100 ms interval.
 */
module Timeline {
  import opened Wrappers
  import Decimal

  /** Years added by one tick of the interval. */
  const Step: int := 5
  /** Bounds used when the component is mounted without `min`/`max` props. */
  const DefaultMin: int := 1000
  const DefaultMax: int := 2024

  /** The cursor year and whether the interval is running. */
  datatype Playback = Playback(year: int, playing: bool)

  /** The slider's bounds, after the props' defaults are applied. */
  datatype Bounds = Bounds(min: int, max: int)

  /** Bounds from optional props: an omitted prop takes its default, a given one is kept as is. */
  function ResolveBounds(min: Option<int>, max: Option<int>): (b: Bounds)
    ensures min.None? ==> b.min == DefaultMin
    ensures max.None? ==> b.max == DefaultMax
    ensures min.Some? ==> b.min == min.value
    ensures max.Some? ==> b.max == max.value
  {
    Bounds(min.GetOr(DefaultMin), max.GetOr(DefaultMax))
  }

  /**
   * One firing of the interval. A stopped timeline has no interval, so nothing
   * changes. A year already at or beyond `max` is snapped to `max` and playback
   * stops; otherwise the year advances by a full step, possibly past `max`.
   */
  function Tick(s: Playback, max: int): (t: Playback)
    ensures !s.playing ==> t == s
    ensures s.playing && s.year >= max ==> t == Playback(max, false)
    ensures s.playing && s.year < max ==> t.playing && t.year == s.year + Step
    ensures s.playing && s.year < max ==> s.year < t.year <= max + Step - 1
  {
    if !s.playing then s
    else if s.year >= max then Playback(max, false)
    else Playback(s.year + Step, true)
  }

  /** The play/pause button. */
  function TogglePlay(s: Playback): (t: Playback)
    ensures t.playing != s.playing
    ensures t.year == s.year
  {
    s.(playing := !s.playing)
  }

  /** `n` consecutive firings of the interval. */
  function Run(s: Playback, max: int, n: nat): Playback
    decreases n
  {
    if n == 0 then s else Run(Tick(s, max), max, n - 1)
  }

  /** The number of ticks after which playing from `year` stops: ceil((max - year) / 5) + 1 below `max`, 1 otherwise. */
  function TicksToStop(year: int, max: int): (n: nat)
    ensures n >= 1
  {
    if year >= max then 1 else (max - year + Step - 1) / Step + 1
  }

  /** A stopped timeline stays where it is, however many ticks are asked of it. */
  lemma {:induction false} StoppedIsFixed(s: Playback, max: int, n: nat)
    requires !s.playing
    ensures Run(s, max, n) == s
    decreases n
  {
    if n > 0 {
      StoppedIsFixed(s, max, n - 1);
    }
  }

  /** Overshoot is bounded: a year at most `max + 4` stays at most `max + 4` under any number of ticks. */
  lemma {:induction false} OvershootBounded(s: Playback, max: int, n: nat)
    requires s.year <= max + Step - 1
    ensures Run(s, max, n).year <= max + Step - 1
    decreases n
  {
    if n > 0 {
      OvershootBounded(Tick(s, max), max, n - 1);
    }
  }

  /**
   * Termination: playing from any year, the timeline stops exactly at `max`
   * after `TicksToStop(year, max)` ticks, and is still playing after every
   * smaller number of ticks.
   */
  lemma {:induction false} PlaybackStops(year: int, max: int)
    ensures Run(Playback(year, true), max, TicksToStop(year, max)) == Playback(max, false)
    ensures forall k :: 0 <= k < TicksToStop(year, max) ==> Run(Playback(year, true), max, k).playing
    decreases if year < max then max - year else 0
  {
    var s := Playback(year, true);
    var n := TicksToStop(year, max);
    if year >= max {
      assert Run(s, max, 1) == Run(Playback(max, false), max, 0);
    } else {
      var t := Tick(s, max);
      assert t == Playback(year + Step, true);
      PlaybackStops(year + Step, max);
      assert n == TicksToStop(year + Step, max) + 1;
      forall k | 0 <= k < n
        ensures Run(s, max, k).playing
      {
        if k > 0 {
          assert Run(s, max, k) == Run(t, max, k - 1);
        }
      }
    }
  }

  /** Mounted without bounds, playing from the lower bound stops at the upper one, 2024, after 206 ticks. */
  lemma DefaultPlaybackStops()
    ensures var b := ResolveBounds(None, None);
      && Run(Playback(b.min, true), b.max, 206) == Playback(2024, false)
      && forall k :: 0 <= k < 206 ==> Run(Playback(b.min, true), b.max, k).playing
  {
    var b := ResolveBounds(None, None);
    PlaybackStops(b.min, b.max);
  }

  /** The left-hand caption of the slider: the lower bound, written as "N BC" when it is negative. */
  function OriginLabel(min: int): (caption: string)
    ensures min < 0 ==> |caption| > 3 && caption[|caption| - 3..] == " BC"
    ensures min >= 0 ==> Decimal.AllDigits(caption)
    ensures |caption| >= 1 && (caption[0] == '0' ==> caption == "0")
  {
    if min < 0 then Decimal.NatToString(-min) + " BC" else Decimal.NatToString(min)
  }

  /** Reads a year back from an origin caption; the inverse of `OriginLabel`. */
  function ParseOriginLabel(caption: string): Option<int> {
    if |caption| > 3 && caption[|caption| - 3..] == " BC" && Decimal.AllDigits(caption[..|caption| - 3]) then
      Some(0 - Decimal.ParseNat(caption[..|caption| - 3]) as int)
    else if Decimal.AllDigits(caption) then
      Some(Decimal.ParseNat(caption))
    else
      None
  }

  /** The origin caption is unambiguous: it names exactly the lower bound. */
  lemma OriginLabelRoundTrip(min: int)
    ensures ParseOriginLabel(OriginLabel(min)) == Some(min)
  {
    var caption := OriginLabel(min);
    if min < 0 {
      var digits := Decimal.NatToString(-min);
      assert caption[..|caption| - 3] == digits;
      Decimal.ParseNatToString(-min);
    } else {
      Decimal.ParseNatToString(min);
    }
  }
}

=== FILE: translate.dfy ===
/**
 * The server actions that wrap the localization engine: plain text, nested
 * objects, and chat transcripts translated message by message.
 */
module Translate {
  import opened Wrappers
  import opened Js

  /** The engine's text call: text, target locale and optional source locale to a translation, or nothing when it throws. */
  type TextEngine = (string, string, Option<string>) -> Option<string>

  /** The engine's object call: content, source locale and target locale to translated content, or nothing when it throws. */
  type ObjectEngine<!V> = (map<string, V>, string, string) -> Option<map<string, V>>

  /** The source locale `translateObject` assumes when none is passed. */
  const DefaultSourceLocale: string := "en"

  /** `sourceLocale || null`: an absent or empty source locale becomes null, letting the engine detect it. */
  function SourceOrNull(source: Option<string>): (s: Option<string>)
    ensures s.Some? <==> TruthyStr(source)
    ensures s.Some? ==> s == source
  {
    if TruthyStr(source) then source else None
  }

  /**
   * translateText: empty text translates to "" without the engine; otherwise
   * the engine's answer, and any engine failure becomes a thrown error.
   */
  function TranslateText(text: string, target: string, source: Option<string>, engine: TextEngine): (r: Result<string, string>)
    ensures text == "" ==> r == Success("")
    ensures text != "" ==> (r.Success? <==> engine(text, target, SourceOrNull(source)).Some?)
    ensures text != "" && r.Success? ==> r.value == engine(text, target, SourceOrNull(source)).value
    ensures r.Failure? ==> r.error == "Failed to translate text"
  {
    if text == "" then Success("")
    else
      match engine(text, target, SourceOrNull(source))
      case Some(t) => Success(t)
      case None => Failure("Failed to translate text")
  }

  /** Empty text never reaches the engine: any two engines agree on it. */
  lemma EmptyTextSkipsEngine(target: string, source: Option<string>, e1: TextEngine, e2: TextEngine)
    ensures TranslateText("", target, source, e1) == TranslateText("", target, source, e2) == Success("")
  {
  }

  /**
   * translateObject: absent content gives `{}`; otherwise the engine's answer
   * with the source locale defaulting to "en" (only when omitted, not when
   * empty), and any engine failure becomes a thrown error.
   */
  function TranslateObject<V>(content: Option<map<string, V>>, target: string, source: Option<string>,
                              engine: ObjectEngine<V>): (r: Result<map<string, V>, string>)
    ensures content.None? ==> r == Success(map[])
    ensures content.Some? ==> (r.Success? <==> engine(content.value, source.GetOr(DefaultSourceLocale), target).Some?)
    ensures content.Some? && r.Success? ==> r.value == engine(content.value, source.GetOr(DefaultSourceLocale), target).value
    ensures source.None? && content.Some? && r.Success? ==> r.value == engine(content.value, "en", target).value
    ensures r.Failure? ==> r.error == "Failed to translate object"
  {
    if content.None? then Success(map[])
    else
      match engine(content.value, source.GetOr(DefaultSourceLocale), target)
      case Some(t) => Success(t)
      case None => Failure("Failed to translate object")
  }

  /** An omitted source locale is the same as passing "en". */
  lemma OmittedSourceIsEnglish<V>(content: Option<map<string, V>>, target: string, engine: ObjectEngine<V>)
    ensures TranslateObject(content, target, None, engine) == TranslateObject(content, target, Some("en"), engine)
  {
  }

  /** Absent content never reaches the engine: any two engines agree on it. */
  lemma AbsentContentSkipsEngine<V>(target: string, source: Option<string>, e1: ObjectEngine<V>, e2: ObjectEngine<V>)
    ensures TranslateObject(None, target, source, e1) == TranslateObject(None, target, source, e2) == Success(map[])
  {
  }

  /** An element of the `conversation` argument: something that is not an object, or an object with optional fields. */
  datatype ChatItem = NonObject | Entry(name: Option<string>, text: Option<string>)

  /** The `conversation` argument: possibly not an array at all. */
  datatype ChatInput = NotArray | Items(items: seq<ChatItem>)

  /** A sanitised or translated chat message. */
  datatype Message = Message(name: string, text: string)

  const UnknownSpeaker: string := "Unknown"

  /** Sanitisation keeps the objects whose text is truthy. */
  predicate Kept(item: ChatItem) {
    item.Entry? && TruthyStr(item.text)
  }

  /** A kept item as a message: a missing or empty name becomes "Unknown". */
  function Clean(item: ChatItem): (m: Message)
    requires Kept(item)
    ensures m.text == item.text.value && m.text != ""
    ensures TruthyStr(item.name) ==> m.name == item.name.value
    ensures !TruthyStr(item.name) ==> m.name == UnknownSpeaker
  {
    Message(OrStr(item.name, UnknownSpeaker), item.text.value)
  }

  /** The sanitised conversation: kept items, cleaned, in input order. */
  function Sanitize(items: seq<ChatItem>): (clean: seq<Message>)
    ensures |clean| <= |items|
    ensures forall i :: 0 <= i < |clean| ==> clean[i].text != "" && clean[i].name != ""
    decreases |items|
  {
    if |items| == 0 then []
    else (if Kept(items[0]) then [Clean(items[0])] else []) + Sanitize(items[1..])
  }

  /** Sanitisation works item by item, so it preserves the input order across any split. */
  lemma {:induction false} SanitizeAppend(a: seq<ChatItem>, b: seq<ChatItem>)
    ensures Sanitize(a + b) == Sanitize(a) + Sanitize(b)
    decreases |a|
  {
    if |a| == 0 {
      assert a + b == b;
    } else {
      assert (a + b)[1..] == a[1..] + b;
      SanitizeAppend(a[1..], b);
    }
  }

  /** When every item is kept, the i-th message is the i-th item cleaned. */
  lemma {:induction false} SanitizeAllKept(items: seq<ChatItem>)
    requires forall i :: 0 <= i < |items| ==> Kept(items[i])
    ensures |Sanitize(items)| == |items|
    ensures forall i :: 0 <= i < |items| ==> Sanitize(items)[i] == Clean(items[i])
    decreases |items|
  {
    if |items| > 0 {
      SanitizeAllKept(items[1..]);
    }
  }

  /** When no item is kept, nothing remains. */
  lemma {:induction false} SanitizeNoneKept(items: seq<ChatItem>)
    requires forall i :: 0 <= i < |items| ==> !Kept(items[i])
    ensures Sanitize(items) == []
    decreases |items|
  {
    if |items| > 0 {
      SanitizeNoneKept(items[1..]);
    }
  }

  /** What one message becomes: the engine's translation, or the original text when that translation is empty. */
  ghost predicate TranslatedAs(out: Message, msg: Message, target: string, source: Option<string>, engine: TextEngine) {
    var t := engine(msg.text, target, SourceOrNull(source));
    && t.Some?
    && out.name == msg.name
    && out.text == (if t.value != "" then t.value else msg.text)
  }

  /**
   * translateChat: a non-array, an empty array, or one whose every item is
   * filtered out gives []; otherwise each sanitised message is translated,
   * keeping its speaker, and one failed message makes the whole call throw.
   */
  method TranslateChat(input: ChatInput, target: string, source: Option<string>, engine: TextEngine)
    returns (r: Result<seq<Message>, string>)
    ensures input.NotArray? ==> r == Success([])
    ensures input.Items? && Sanitize(input.items) == [] ==> r == Success([])
    ensures input.Items? ==>
              var clean := Sanitize(input.items);
              r.Failure? <==> exists i :: 0 <= i < |clean| && engine(clean[i].text, target, SourceOrNull(source)).None?
    ensures r.Failure? ==> r.error == "Failed to translate chat"
    ensures r.Success? && input.Items? ==>
              var clean := Sanitize(input.items);
              && |r.value| == |clean|
              && forall i :: 0 <= i < |clean| ==> TranslatedAs(r.value[i], clean[i], target, source, engine)
  {
    if input.NotArray? || |input.items| == 0 {
      return Success([]);
    }
    var clean := Sanitize(input.items);
    if |clean| == 0 {
      return Success([]);
    }
    var out: seq<Message> := [];
    var i := 0;
    while i < |clean|
      invariant 0 <= i <= |clean|
      invariant |out| == i
      invariant forall k :: 0 <= k < i ==> TranslatedAs(out[k], clean[k], target, source, engine)
    {
      var msg := clean[i];
      var t := TranslateText(msg.text, target, source, engine);
      if t.Failure? {
        return Failure("Failed to translate chat");
      }
      out := out + [Message(msg.name, if t.value != "" then t.value else msg.text)];
      i := i + 1;
    }
    return Success(out);
  }
}

=== FILE: wrappers.dfy ===
/** Failure-carrying datatypes shared by the whole model. */
module Wrappers {

  /** A value that may be absent: JavaScript's `undefined`/`null`, or a provider that gave nothing. */
  datatype Option<+T> = None | Some(value: T) {

    /** The wrapped value, or `default` when there is none. */
    function GetOr(default: T): T {
      if this.Some? then value else default
    }
  }

  /** The outcome of an operation that either returns a value or throws an error message. */
  datatype Result<+R, +E> = Success(value: R) | Failure(error: E)
}

/** JavaScript truthiness of the optional fields that arrive in JSON bodies and props. */
module Js {
  import opened Wrappers

  /** A string is truthy when present and non-empty. */
  predicate TruthyStr(s: Option<string>) {
    s.Some? && s.value != ""
  }

  /** A number is truthy when present and not zero (NaN is not modelled). */
  predicate TruthyNum(n: Option<int>) {
    n.Some? && n.value != 0
  }

  /** `s || fallback` for an optional string. */
  function OrStr(s: Option<string>, fallback: string): (r: string)
    ensures r == fallback || (s.Some? && r == s.value)
    ensures fallback != "" ==> r != ""
  {
    if TruthyStr(s) then s.value else fallback
  }
}

/** Responses of the Next.js API routes. */
module Http {

  /** Either a 400 response carrying an error message, or a 200 JSON body. */
  datatype Response<+T> = BadRequest(error: string) | Ok(body: T)

  /** What the page sees of a `fetch`: a parsed body, a non-ok status, or a thrown error. */
  datatype Fetch<+T> = Loaded(body: T) | NotOk | Thrown

  /** The page's view of a route's response: a 400 is a non-ok fetch. */
  function Received<T>(r: Response<T>): (f: Fetch<T>)
    ensures f.Loaded? <==> r.Ok?
    ensures f.Loaded? ==> f.body == r.body
    ensures !f.Thrown?
  {
    match r
    case BadRequest(_) => NotOk
    case Ok(b) => Loaded(b)
  }
}
